=== FILE: README.md ===
# Catalog view model

A Dafny model of the list logic of the product catalog page
(`ProductList` in `src/pages/productList.jsx`) and its shared
recommendation predicate (`src/utils/recommendation.js`). The page fetches a
product list once, offers the category choices, filters the list by a
case-insensitive title search and a category, sorts it by price, marks
recommended products, and keeps a favorites list and a dark-mode flag in the
browser's local store.

The model is functional. Products and the page state are immutable
datatypes. Every derivation is a pure function over sequences, and every
effect or handler is a transition from one `State` to the next.

| file | module | what it holds |
|---|---|---|
| `products.dfy` | `Products` | the `Product` and `Rating` records and the two price sort keys |
| `seqs.dfy` | `Seqs` | order-preserving `Filter`, subsequence embeddings, duplicates, first occurrences |
| `text.dfy` | `Text` | ASCII lower-casing and `includes` as a left-to-right scan, with its meaning as an occurrence |
| `stable_sort.dfy` | `StableSort` | a stable sort by a real key and the proof that sortedness plus stability fix the result |
| `recommendation.dfy` | `Recommendation` | `IsRecommended` and the average price with its `NaN \|\| 0` fallback |
| `catalog.dfy` | `Catalog` | category list, search/category filters, sort modes, the visible list |
| `storage.dfy` | `Storage` | the local store as a map with the keys `'favorites'` and `'darkMode'` |
| `favorites.dfy` | `Favorites` | the favorites toggle |
| `session.dfy` | `Session` | page state, mount, load resolution, toggles, and the screen chosen for rendering |
| `scenarios.dfy` | `Scenarios` | concrete runs: a recommendation, a search, a descending sort |

Modelling choices:
- `Array.prototype.sort` with the comparators `a.price - b.price` and `b.price - a.price` is modelled as a stable insertion sort by `price` or by `-price`. Section 23.1.3.30 of ECMA-262 (2023 edition) requires the sort to be stable. `StableSort.SortedStableUnique` shows that any sorted, stable permutation is this one, so the engine's algorithm does not matter.
- Stability is stated through key classes. `KeyClass(s, key, k)` lists the elements of `s` with key `k` in their order in `s`. A sort is stable when every key class of its output equals that of its input. This holds even when equal products occur twice.
- `JSON.parse` is not guarded on either stored key, so the code has no fallback for a stored text that does not parse: it throws. The model reads such a text as `Failed`, and a page mount over such a store fails.
- A stored theme value is used only through its truthiness, so any JSON value works there (an array, even empty, is truthy). A stored favorites value that is not an id list has no meaning in the model and reads as `Failed`.
- A stored empty text is falsy in the code, so it reads as the default (`[]` or `false`), like a missing key.
- Favorites are a list, not a set: toggling appends a new id at the end and removes every copy of a present id.
- The sort mutates only the fresh array that `filter` returns. In the model every list is a value, so the loaded `products` can never be reordered.
- The search, category and sort inputs are plain state setters bound in the markup. They are the `search`, `category` and `sort` fields of `Session.State`.

## Model

| member | source | states |
|---|---|---|
| `Recommendation.IsRecommended` | frontend-Intership-Assignment/src/utils/recommendation.js:1-3 | the badge predicate, one definition for both copies (the page's inline copy at productList.jsx:11-13 has the same body); its meaning is stated by the four lemmas below |
| `Recommendation.HighRatingRecommended` | frontend-Intership-Assignment/src/utils/recommendation.js:1-3 | a rating above 4 makes a product recommended whatever its price |
| `Recommendation.BelowAverageRecommended` | frontend-Intership-Assignment/src/utils/recommendation.js:1-3 | a price below the average makes a product recommended whatever its rating |
| `Recommendation.NotRecommendedIff` | frontend-Intership-Assignment/src/utils/recommendation.js:2 | not recommended exactly when the rating is at most 4 and the price is at least the average; rate 4 at the average is not recommended |
| `Recommendation.RecommendationDependsOnRateAndPrice` | frontend-Intership-Assignment/src/utils/recommendation.js:1-3 | two products with the same rate and price get the same verdict, whatever their id, title, category, image or count |
| `Recommendation.RecommendationMonotoneInAverage` | frontend-Intership-Assignment/src/utils/recommendation.js:2 | a product recommended at average `a` stays recommended at every average `b >= a` |
| `Recommendation.AveragePrice` | frontend-Intership-Assignment/src/pages/productList.jsx:136-137 | the empty list's average is 0; otherwise average times count is the sum of the prices |
| `Recommendation.AveragePriceWithinBounds` | frontend-Intership-Assignment/src/pages/productList.jsx:136-137 | the average of a non-empty list lies between any lower and upper bound of its prices |
| `Recommendation.SomeProductNotBelowAverage` | frontend-Intership-Assignment/src/pages/productList.jsx:136-137 | a non-empty list has a product priced at or above its average, so the price clause never recommends every product |
| `Recommendation.UniformPricesRecommendByRatingOnly` | frontend-Intership-Assignment/src/pages/productList.jsx:11-13 | when all prices are equal, a listed product is recommended exactly when its rating is above 4 |
| `Text.Lower` | frontend-Intership-Assignment/src/pages/productList.jsx:141 | lower-casing keeps the length, turns each upper-case ASCII letter into its lower-case partner, and changes no other character |
| `Text.LowerIgnoresCase` | frontend-Intership-Assignment/src/pages/productList.jsx:141 | strings that differ only in the case of ASCII letters lower-case to the same string |
| `Text.LowerIdempotent` | frontend-Intership-Assignment/src/pages/productList.jsx:141 | lower-casing twice is lower-casing once |
| `Text.Contains` | frontend-Intership-Assignment/src/pages/productList.jsx:141 | the left-to-right `includes` scan succeeds exactly when the needle occurs at some position of the text |
| `Catalog.Distinct` | frontend-Intership-Assignment/src/pages/productList.jsx:134 | the `Set` of a sequence has no duplicates and holds exactly the values of the sequence |
| `Catalog.DistinctFirstOccurrenceOrder` | frontend-Intership-Assignment/src/pages/productList.jsx:134 | the `Set`'s values are ordered by their first occurrence in the input |
| `Catalog.Categories` | frontend-Intership-Assignment/src/pages/productList.jsx:134 | the first choice is "all"; the rest are pairwise distinct, include every product's category, and each belongs to some product |
| `Catalog.CategoriesCount` | frontend-Intership-Assignment/src/pages/productList.jsx:134 | the number of choices is one plus the number of distinct product categories |
| `Catalog.CategoriesFirstOccurrenceOrder` | frontend-Intership-Assignment/src/pages/productList.jsx:134 | the choices after "all" follow the order in which their categories first occur in the products |
| `Catalog.CategoriesKeepDataAll` | frontend-Intership-Assignment/src/pages/productList.jsx:134 | a product category literally named "all" appears again after the sentinel; it is not merged with it |
| `Catalog.TitleMatchesIff` | frontend-Intership-Assignment/src/pages/productList.jsx:140-142 | a product passes the search exactly when the lower-cased search occurs in its lower-cased title |
| `Catalog.FilterProducts` | frontend-Intership-Assignment/src/pages/productList.jsx:139-143 | every kept product matches the search and the category; every matching product is kept, as often as it occurs in the input |
| `Catalog.FilterProductsIsSubsequence` | frontend-Intership-Assignment/src/pages/productList.jsx:139-143 | the filtered list is an order-preserving subsequence of the loaded list |
| `Catalog.DefaultFilterKeepsAll` | frontend-Intership-Assignment/src/pages/productList.jsx:96-97 | an empty search with category "all" keeps the whole list |
| `Catalog.ParseSort` | frontend-Intership-Assignment/src/pages/productList.jsx:145-149 | the ascending mode is chosen exactly for "low" and the descending mode exactly for "high"; anything else sorts nothing |
| `Catalog.SortProducts` | frontend-Intership-Assignment/src/pages/productList.jsx:145-149 | the result is a permutation of the input; ascending or descending by price per mode; the unsorted mode leaves the list as it is; every equal-price group keeps its input order |
| `Catalog.SortProductsSorted` | frontend-Intership-Assignment/src/pages/productList.jsx:145-149 | sorting a list already in the mode's order changes nothing |
| `Catalog.VisibleProducts` | frontend-Intership-Assignment/src/pages/productList.jsx:139-149 | the shown list holds exactly the products matching search and category, as a permutation of the filtered list; it is ordered by price for "low" and "high", equal prices keep their filtered order, and any other sort value leaves the filtered order |
| `Catalog.VisibleProductsIdempotent` | frontend-Intership-Assignment/src/pages/productList.jsx:139-149 | feeding the shown list back through the same search, category and sort shows the same list |
| `Catalog.DefaultViewIsLoadedList` | frontend-Intership-Assignment/src/pages/productList.jsx:96-98 | with the initial inputs the page shows the loaded list in its loaded order |
| `StableSort.Sort` | frontend-Intership-Assignment/src/pages/productList.jsx:146 | the sort's result is ordered by the key and is a permutation of its input |
| `StableSort.SortStable` | frontend-Intership-Assignment/src/pages/productList.jsx:146-148 | every key class of the sort's result equals that of its input, so equal keys keep their relative order |
| `StableSort.SortedStableUnique` | frontend-Intership-Assignment/src/pages/productList.jsx:146-148 | two key-ordered sequences with the same key classes are equal, so every stable sort gives the same result |
| `StableSort.SortSorted` | frontend-Intership-Assignment/src/pages/productList.jsx:146-148 | a sequence already ordered by the key is its own sort |
| `Storage.ReadFavorites` | frontend-Intership-Assignment/src/pages/productList.jsx:19-22 | a missing key or empty text reads as no favorites and a stored id list as itself; the read fails exactly when the stored text is neither an id list nor empty |
| `Storage.ReadDarkMode` | frontend-Intership-Assignment/src/pages/productList.jsx:100-103 | a missing key or empty text reads as the light theme; a boolean reads as itself, any other JSON value as its truthiness; the read fails exactly when the stored text does not parse |
| `Storage.WriteFavorites` | frontend-Intership-Assignment/src/pages/productList.jsx:15-17 | reading the favorites back gives exactly the written list; the theme read and every other key are unchanged |
| `Storage.WriteDarkMode` | frontend-Intership-Assignment/src/pages/productList.jsx:116-118 | reading the theme back gives exactly the written flag; the favorites read and every other key are unchanged |
| `Favorites.Toggle` | frontend-Intership-Assignment/src/pages/productList.jsx:120-128 | only the id's membership flips; an absent id is appended at the end; a present id loses every copy while other ids keep their counts; a duplicate-free list stays duplicate-free |
| `Favorites.ToggleRemovalIsSubsequence` | frontend-Intership-Assignment/src/pages/productList.jsx:123 | removing an id keeps the remaining ids in their order |
| `Favorites.ToggleTwiceMembership` | frontend-Intership-Assignment/src/pages/productList.jsx:120-128 | two toggles of one id restore which ids are favorites |
| `Favorites.ToggleTwiceRestoresAbsent` | frontend-Intership-Assignment/src/pages/productList.jsx:122-124 | adding an absent id and removing it again restores the list exactly |
| `Favorites.ToggleTwicePresent` | frontend-Intership-Assignment/src/pages/productList.jsx:122-124 | removing a present id and adding it back moves it to the end of the remaining list |
| `Session.Mount` | frontend-Intership-Assignment/src/pages/productList.jsx:93-118 | the page mounts exactly when both stored values parse; it starts loading with no products, no error and default inputs, holds the stored favorites and theme, and agrees with the store; the store changes only at the theme key, which holds the theme read |
| `Session.Resolve` | frontend-Intership-Assignment/src/pages/productList.jsx:105-110 | loading ends; success stores the fetched list and keeps the error; failure sets "Failed to load products" and keeps the list; nothing else changes |
| `Session.MountThenResolve` | frontend-Intership-Assignment/src/pages/productList.jsx:93-110 | after mount, success shows the catalog of the fetched list with no error; failure shows the error screen with an empty list; loading is over either way |
| `Session.ToggleFavorite` | frontend-Intership-Assignment/src/pages/productList.jsx:120-128 | the new list is the toggled list: an absent id appended at the end, a present id removed with the order of the rest kept; the id's membership flips and no other id's does; the store changes only at the favorites key, which reads back exactly the new list; the store stays in step with the page; no other page state changes |
| `Session.ToggleDarkMode` | frontend-Intership-Assignment/src/pages/productList.jsx:130-132 | the flag is negated; the store changes only at the theme key, which reads back the new flag; the store stays in step with the page; no other page state changes |
| `Session.ToggleDarkModeTwice` | frontend-Intership-Assignment/src/pages/productList.jsx:130-132 | two theme toggles restore the flag and the stored flag |
| `Session.Render` | frontend-Intership-Assignment/src/pages/productList.jsx:151-159 | the loader shows exactly while loading; the error screen shows exactly when loading is over and the error text is non-empty; otherwise the catalog shows the categories and cards |
| `Session.CardsDescribeVisibleProducts` | frontend-Intership-Assignment/src/pages/productList.jsx:236-244 | each card shows the product at its position of the visible list, with its favorite flag equal to membership of its id and its badge equal to the recommendation against the mean price of the whole loaded list |
| `Session.RecommendationIgnoresViewInputs` | frontend-Intership-Assignment/src/pages/productList.jsx:242 | the badge uses the average of the whole loaded list, so search, category and sort never change a product's badge |
| `Session.ToggleFavoriteFlipsCards` | frontend-Intership-Assignment/src/pages/productList.jsx:240 | after toggling an id, the cards for that id flip their favorite flag and all other cards keep theirs |
| `Scenarios.ScenarioRecommendation` | frontend-Intership-Assignment/src/utils/recommendation.js:2 | with prices 10 and 50 the average is 30; the cheap product and the one rated 4.5 are both recommended |
| `Scenarios.ScenarioSearch` | frontend-Intership-Assignment/src/pages/productList.jsx:140-143 | the search "shoe" keeps "Running Shoes" and drops "Desk Lamp" |
| `Scenarios.ScenarioSortHigh` | frontend-Intership-Assignment/src/pages/productList.jsx:147-148 | "high" orders prices 10, 50, 30 as 50, 30, 10 |

## Left out

- Rendering: the JSX of `ProductList`, the `Loader` and inline `ProductCard` components, `src/components/ProductCard.jsx`, `src/App.jsx` and `src/pages/Home.jsx` only display values. `Home.jsx` imports a `Navbar` that is not part of this model.
- The network request `fetchProducts` (productList.jsx:4-8) is an input: `Session.FetchOutcome` is either the fetched list or a failure. Payloads that are not a product list are not modelled.
- `localStorage`, `JSON.stringify` and `JSON.parse` are abstracted to a map from key to the parsed value (`Storage.Stored`). Write failures such as a full quota are not modelled, because the code has no handling for them.
- JavaScript numbers: prices and ratings are exact reals. NaN, infinities and rounding are not modelled, except the empty list's `0 / 0 || 0`. The comparator's subtraction is taken as exact.
- Text.Lower: only ASCII letters are lower-cased, not the full Unicode mapping of `toLowerCase`.
- React scheduling: each effect is an explicit transition. The three mount effects are folded into `Session.Mount`, in source order. The resolution of the request is `Session.Resolve`. A page torn down before the request settles is not modelled.
- Storage.ReadFavorites: a stored favorites text that parses to a JSON value other than an id list reads as a failure. The page would hold that value as its favorites, and most such values make it throw later at `favorites.includes` (productList.jsx:240).
- Session.Mount: on mount the page writes the stored theme value back with `JSON.stringify`, unchanged. The model keeps only its truthiness, so a non-boolean value is written back as the boolean it acts as.
- Session.Cards: its contract states only the length; what each card shows (product, favorite flag and badge) is stated by `Session.CardsDescribeVisibleProducts`.

=== FILE: catalog.dfy ===
/** The list derivations the product page recomputes on every render: the
    category choices, the search and category filters and the price sort. */
module Catalog {
  import opened Products
  import opened Seqs
  import opened Text
  import opened StableSort

  /** The category selection that disables the category filter. */
  const AllCategories: string := "all"

  // ---------------------------------------------------------------- categories

  function CategoryColumn(ps: seq<Product>): (r: seq<string>)
    ensures |r| == |ps|
    ensures forall i :: 0 <= i < |ps| ==> r[i] == ps[i].category
  {
    seq(|ps|, i requires 0 <= i < |ps| => ps[i].category)
  }

  /** The iteration order of `new Set(s)`: each value once, where it first
      occurs. */
  function Distinct<T(==)>(s: seq<T>): (r: seq<T>)
    ensures NoDuplicates(r)
    ensures forall i :: 0 <= i < |r| ==> r[i] in s
    ensures forall i :: 0 <= i < |s| ==> s[i] in r
  {
    if |s| == 0 then []
    else
      var d := Distinct(s[..|s| - 1]);
      var last := s[|s| - 1];
      assert forall i :: 0 <= i < |s| - 1 ==> s[i] == s[..|s| - 1][i];
      if last in d then d else d + [last]
  }

  /** The values of `Distinct(s)` appear in the order of their first
      occurrence in `s`. */
  lemma {:induction false} DistinctFirstOccurrenceOrder<T>(s: seq<T>)
    ensures forall i, j :: 0 <= i < j < |Distinct(s)| ==>
              FirstIndex(s, Distinct(s)[i]) < FirstIndex(s, Distinct(s)[j])
  {
    if |s| != 0 {
      var init := s[..|s| - 1];
      var last := s[|s| - 1];
      var d := Distinct(init);
      DistinctFirstOccurrenceOrder(init);
      forall x | x in d
        ensures FirstIndex(s, x) == FirstIndex(init, x) < |s| - 1
      {
        FirstIndexPrefix(s, |s| - 1, x);
      }
      if last !in d {
        assert last !in init;
        assert FirstIndex(s, last) == |s| - 1;
        assert Distinct(s) == d + [last];
      }
    }
  }

  lemma DistinctCount<T>(s: seq<T>)
    ensures |Distinct(s)| == |set x | x in s|
  {
    NoDuplicatesCardinality(Distinct(s));
    assert (set x | x in Distinct(s)) == (set x | x in s);
  }

  /** `["all", ...new Set(products.map(p => p.category))]`. */
  function Categories(ps: seq<Product>): (r: seq<string>)
    ensures |r| > 0 && r[0] == AllCategories
    ensures NoDuplicates(r[1..])
    ensures forall p :: p in ps ==> p.category in r[1..]
    ensures forall c :: c in r[1..] ==> exists p :: p in ps && p.category == c
  {
    var d := Distinct(CategoryColumn(ps));
    assert forall p :: p in ps ==> p.category in CategoryColumn(ps);
    [AllCategories] + d
  }

  /** One entry per distinct category, after the sentinel. */
  lemma CategoriesCount(ps: seq<Product>)
    ensures |Categories(ps)| == 1 + |set p | p in ps :: p.category|
  {
    var column := CategoryColumn(ps);
    DistinctCount(column);
    assert (set x | x in column) == (set p | p in ps :: p.category);
  }

  /** The categories after the sentinel follow first occurrence in the list. */
  lemma CategoriesFirstOccurrenceOrder(ps: seq<Product>)
    ensures forall i, j :: 1 <= i < j < |Categories(ps)| ==>
              FirstIndex(CategoryColumn(ps), Categories(ps)[i])
              < FirstIndex(CategoryColumn(ps), Categories(ps)[j])
  {
    DistinctFirstOccurrenceOrder(CategoryColumn(ps));
    var d := Distinct(CategoryColumn(ps));
    assert forall i :: 1 <= i < |Categories(ps)| ==> Categories(ps)[i] == d[i - 1];
  }

  /** A product whose category is literally "all" is not merged with the
      sentinel: the choice list then holds "all" a second time. */
  lemma CategoriesKeepDataAll(ps: seq<Product>)
    requires exists p :: p in ps && p.category == AllCategories
    ensures AllCategories in Categories(ps)[1..]
  {
  }

  // ------------------------------------------------------------------ filters

  predicate TitleMatches(p: Product, search: string) {
    Contains(Lower(p.title), Lower(search))
  }

  predicate CategoryMatches(p: Product, category: string) {
    category == AllCategories || p.category == category
  }

  /** The two chained `filter` calls: search text, then category. */
  function FilterProducts(ps: seq<Product>, search: string, category: string): (r: seq<Product>)
    ensures forall i :: 0 <= i < |r| ==> TitleMatches(r[i], search) && CategoryMatches(r[i], category)
    ensures forall p :: p in r <==> p in ps && TitleMatches(p, search) && CategoryMatches(p, category)
    ensures forall p :: multiset(r)[p] ==
              if TitleMatches(p, search) && CategoryMatches(p, category) then multiset(ps)[p] else 0
  {
    Filter(Filter(ps, p => TitleMatches(p, search)), p => CategoryMatches(p, category))
  }

  /** The filtered list keeps the products in their loaded order. */
  lemma FilterProductsIsSubsequence(ps: seq<Product>, search: string, category: string)
    ensures IsSubsequence(FilterProducts(ps, search, category), ps)
  {
    var byTitle := Filter(ps, p => TitleMatches(p, search));
    var first := FilterIsSubsequence(ps, p => TitleMatches(p, search));
    var second := FilterIsSubsequence(byTitle, p => CategoryMatches(p, category));
    var both := EmbedsCompose(FilterProducts(ps, search, category), byTitle, ps, second, first);
  }

  /** The default inputs, empty search and "all", show the whole list. */
  lemma DefaultFilterKeepsAll(ps: seq<Product>)
    ensures FilterProducts(ps, "", AllCategories) == ps
  {
    forall i | 0 <= i < |ps| ensures TitleMatches(ps[i], "") {
      ContainsEmpty(Lower(ps[i].title));
    }
    FilterKeepsAll(ps, p => TitleMatches(p, ""));
    FilterKeepsAll(ps, p => CategoryMatches(p, AllCategories));
  }

  /** The search is case-insensitive: it matches a title exactly when the
      lower-cased search text occurs somewhere in the lower-cased title. */
  lemma TitleMatchesIff(p: Product, search: string)
    ensures TitleMatches(p, search) <==> exists i: nat :: OccursAt(Lower(p.title), Lower(search), i)
  {
  }

  // --------------------------------------------------------------------- sort

  datatype SortMode = Ascending | Descending | Unsorted

  /** The sort select's value: "low", "high", or anything else (the default
      "") for no sorting. */
  function ParseSort(sort: string): (m: SortMode)
    ensures m == Ascending <==> sort == "low"
    ensures m == Descending <==> sort == "high"
  {
    if sort == "low" then Ascending
    else if sort == "high" then Descending
    else Unsorted
  }

  /** The products of `s` priced exactly `q`, in their order in `s`. */
  function PriceClass(s: seq<Product>, q: real): seq<Product> {
    KeyClass(s, Price, q)
  }

  lemma {:induction false} NegatedPriceClass(s: seq<Product>, q: real)
    ensures KeyClass(s, NegatedPrice, -q) == PriceClass(s, q)
  {
    if |s| != 0 {
      NegatedPriceClass(s[1..], q);
    }
  }

  /** `filteredProducts.sort(...)` with the comparator of the chosen mode:
      `a.price - b.price` for "low", `b.price - a.price` for "high". */
  function SortProducts(ps: seq<Product>, mode: SortMode): (r: seq<Product>)
    ensures multiset(r) == multiset(ps)
    ensures mode == Ascending ==> forall i, j :: 0 <= i < j < |r| ==> r[i].price <= r[j].price
    ensures mode == Descending ==> forall i, j :: 0 <= i < j < |r| ==> r[i].price >= r[j].price
    ensures mode == Unsorted ==> r == ps
    ensures forall q :: PriceClass(r, q) == PriceClass(ps, q)
  {
    match mode
    case Ascending =>
      SortStable(ps, Price);
      Sort(ps, Price)
    case Descending =>
      var r := Sort(ps, NegatedPrice);
      SortStable(ps, NegatedPrice);
      assert forall q :: PriceClass(r, q) == PriceClass(ps, q) by {
        forall q ensures PriceClass(r, q) == PriceClass(ps, q) {
          NegatedPriceClass(r, q);
          NegatedPriceClass(ps, q);
        }
      }
      r
    case Unsorted => ps
  }

  /** The list the page shows: filter, then sort. */
  function VisibleProducts(ps: seq<Product>, search: string, category: string, sort: string): (r: seq<Product>)
    ensures forall p :: p in r <==> p in ps && TitleMatches(p, search) && CategoryMatches(p, category)
    ensures multiset(r) == multiset(FilterProducts(ps, search, category))
    ensures sort == "low" ==> forall i, j :: 0 <= i < j < |r| ==> r[i].price <= r[j].price
    ensures sort == "high" ==> forall i, j :: 0 <= i < j < |r| ==> r[i].price >= r[j].price
    ensures sort != "low" && sort != "high" ==> r == FilterProducts(ps, search, category)
    ensures forall q :: PriceClass(r, q) == PriceClass(FilterProducts(ps, search, category), q)
  {
    SortProducts(FilterProducts(ps, search, category), ParseSort(sort))
  }

  /** Sorting an already sorted list changes nothing. */
  lemma SortProductsSorted(ps: seq<Product>, mode: SortMode)
    requires mode == Ascending ==> forall i, j :: 0 <= i < j < |ps| ==> ps[i].price <= ps[j].price
    requires mode == Descending ==> forall i, j :: 0 <= i < j < |ps| ==> ps[i].price >= ps[j].price
    ensures SortProducts(ps, mode) == ps
  {
    match mode
    case Ascending => SortSorted(ps, Price);
    case Descending => SortSorted(ps, NegatedPrice);
    case Unsorted =>
  }

  /** Feeding the shown list back through the same inputs shows it again. */
  lemma VisibleProductsIdempotent(ps: seq<Product>, search: string, category: string, sort: string)
    ensures var v := VisibleProducts(ps, search, category, sort);
      VisibleProducts(v, search, category, sort) == v
  {
    var v := VisibleProducts(ps, search, category, sort);
    var f := FilterProducts(ps, search, category);
    forall i | 0 <= i < |v|
      ensures TitleMatches(v[i], search) && CategoryMatches(v[i], category)
    {
      assert v[i] in multiset(f);
    }
    FilterKeepsAll(v, p => TitleMatches(p, search));
    FilterKeepsAll(v, p => CategoryMatches(p, category));
    SortProductsSorted(v, ParseSort(sort));
  }

  /** With the default inputs the page shows the loaded list as it is. */
  lemma DefaultViewIsLoadedList(ps: seq<Product>)
    ensures VisibleProducts(ps, "", AllCategories, "") == ps
  {
    DefaultFilterKeepsAll(ps);
  }
}

=== FILE: favorites.dfy ===
/** The favorites list: product ids in the order they were added. */
module Favorites {
  import opened Seqs

  /** `prev.includes(id) ? prev.filter(f => f !== id) : [...prev, id]`. */
  function Toggle(favorites: seq<int>, id: int): (r: seq<int>)
    ensures id in r <==> id !in favorites
    ensures forall x :: x != id ==> (x in r <==> x in favorites)
    ensures id !in favorites ==> r == favorites + [id]
    ensures id in favorites ==> forall x :: multiset(r)[x] == if x == id then 0 else multiset(favorites)[x]
    ensures NoDuplicates(favorites) ==> NoDuplicates(r)
  {
    if id in favorites then
      FilterNoDuplicates(favorites, f => f != id);
      Filter(favorites, f => f != id)
    else favorites + [id]
  }

  /** Removal keeps the remaining ids in their order. */
  lemma ToggleRemovalIsSubsequence(favorites: seq<int>, id: int)
    requires id in favorites
    ensures IsSubsequence(Toggle(favorites, id), favorites)
  {
    var idx := FilterIsSubsequence(favorites, f => f != id);
  }

  /** Two toggles of the same id restore which ids are favorites. */
  lemma ToggleTwiceMembership(favorites: seq<int>, id: int)
    ensures forall x :: x in Toggle(Toggle(favorites, id), id) <==> x in favorites
  {
  }

  /** Adding an id and removing it again restores the list exactly. */
  lemma {:induction false} ToggleTwiceRestoresAbsent(favorites: seq<int>, id: int)
    requires id !in favorites
    ensures Toggle(Toggle(favorites, id), id) == favorites
  {
    FilterConcat(favorites, [id], f => f != id);
    FilterKeepsAll(favorites, f => f != id);
  }

  /** Removing an id and adding it back moves it to the end. */
  lemma ToggleTwicePresent(favorites: seq<int>, id: int)
    requires id in favorites
    ensures Toggle(Toggle(favorites, id), id) == Filter(favorites, f => f != id) + [id]
  {
  }
}

=== FILE: products.dfy ===
/** The product record the catalog view receives from the product source.
    Prices and ratings are numbers in the JavaScript code; here they are
    exact reals, so no rounding or NaN behaviour is modelled. */
module Products {

  datatype Rating = Rating(rate: real, count: int)

  datatype Product = Product(
    id: int,
    title: string,
    category: string,
    price: real,
    image: string,
    rating: Rating)

  /** The sort key of the "low" ordering. */
  function Price(p: Product): real {
    p.price
  }

  /** The sort key of the "high" ordering: ascending by the negated price
      is descending by price. */
  function NegatedPrice(p: Product): real {
    -p.price
  }
}

=== FILE: recommendation.dfy ===
/** The recommendation badge: a product is recommended when it is highly
    rated or cheaper than the mean price of the whole loaded list. The
    utility module and the list page each define this predicate with the
    same body; one definition serves both here. */
module Recommendation {
  import opened Products

  /** Ratings strictly above this qualify on their own. */
  const RatingThreshold: real := 4.0

  predicate IsRecommended(p: Product, averagePrice: real) {
    p.rating.rate > RatingThreshold || p.price < averagePrice
  }

  function SumPrices(ps: seq<Product>): real {
    if |ps| == 0 then 0.0 else ps[0].price + SumPrices(ps[1..])
  }

  /** `reduce((sum, p) => sum + p.price, 0) / length || 0`: the mean price,
      where the empty list's `0 / 0` (NaN, which is falsy) becomes 0. */
  function AveragePrice(ps: seq<Product>): (avg: real)
    ensures |ps| == 0 ==> avg == 0.0
    ensures |ps| > 0 ==> avg * (|ps| as real) == SumPrices(ps)
  {
    if |ps| == 0 then 0.0 else SumPrices(ps) / (|ps| as real)
  }

  lemma {:induction false} SumPricesBounds(ps: seq<Product>, lo: real, hi: real)
    requires forall i :: 0 <= i < |ps| ==> lo <= ps[i].price <= hi
    ensures (|ps| as real) * lo <= SumPrices(ps) <= (|ps| as real) * hi
  {
    if |ps| != 0 {
      SumPricesBounds(ps[1..], lo, hi);
    }
  }

  lemma {:induction false} SumPricesBelow(ps: seq<Product>, c: real)
    requires |ps| > 0
    requires forall i :: 0 <= i < |ps| ==> ps[i].price < c
    ensures SumPrices(ps) < (|ps| as real) * c
  {
    if |ps| > 1 {
      SumPricesBelow(ps[1..], c);
    }
  }

  /** The mean lies between any lower and upper bound of the prices. */
  lemma AveragePriceWithinBounds(ps: seq<Product>, lo: real, hi: real)
    requires |ps| > 0
    requires forall i :: 0 <= i < |ps| ==> lo <= ps[i].price <= hi
    ensures lo <= AveragePrice(ps) <= hi
  {
    SumPricesBounds(ps, lo, hi);
  }

  /** No list is entirely below its own mean, so the price clause never
      recommends every product of a non-empty list. */
  lemma SomeProductNotBelowAverage(ps: seq<Product>) returns (i: nat)
    requires |ps| > 0
    ensures i < |ps| && ps[i].price >= AveragePrice(ps)
  {
    var avg := AveragePrice(ps);
    if forall j :: 0 <= j < |ps| ==> ps[j].price < avg {
      SumPricesBelow(ps, avg);
      assert false;
    }
    i :| 0 <= i < |ps| && ps[i].price >= avg;
  }

  /** With one price throughout, only the rating clause can recommend. */
  lemma UniformPricesRecommendByRatingOnly(ps: seq<Product>, c: real, p: Product)
    requires |ps| > 0
    requires forall i :: 0 <= i < |ps| ==> ps[i].price == c
    requires p in ps
    ensures IsRecommended(p, AveragePrice(ps)) <==> p.rating.rate > RatingThreshold
  {
    AveragePriceWithinBounds(ps, c, c);
  }

  /** A rating above 4 recommends whatever the price. */
  lemma HighRatingRecommended(p: Product, averagePrice: real)
    requires p.rating.rate > RatingThreshold
    ensures IsRecommended(p, averagePrice)
  {
  }

  /** A price below the mean recommends whatever the rating. */
  lemma BelowAverageRecommended(p: Product, averagePrice: real)
    requires p.price < averagePrice
    ensures IsRecommended(p, averagePrice)
  {
  }

  /** Not recommended exactly when rated at most 4 and priced at or above
      the mean; a rating of exactly 4 at exactly the mean is not. */
  lemma NotRecommendedIff(p: Product, averagePrice: real)
    ensures !IsRecommended(p, averagePrice) <==> p.rating.rate <= RatingThreshold && p.price >= averagePrice
  {
  }

  /** Only the rate and the price matter, never id, title, category, image
      or rating count. */
  lemma RecommendationDependsOnRateAndPrice(p: Product, q: Product, averagePrice: real)
    requires p.rating.rate == q.rating.rate && p.price == q.price
    ensures IsRecommended(p, averagePrice) == IsRecommended(q, averagePrice)
  {
  }

  /** Raising the mean never withdraws a recommendation. */
  lemma RecommendationMonotoneInAverage(p: Product, a: real, b: real)
    requires a <= b && IsRecommended(p, a)
    ensures IsRecommended(p, b)
  {
  }
}

=== FILE: scenarios.dfy ===
/** Concrete runs of the list derivations on small inputs. */
module Scenarios {
  import opened Products
  import opened Recommendation
  import opened Catalog
  import opened StableSort

  function Item(id: int, title: string, category: string, price: real, rate: real): Product {
    Product(id, title, category, price, "", Rating(rate, 0))
  }

  /** Prices 10 and 50 average to 30: the cheap product is recommended by
      price, the expensive one by its 4.5 rating. */
  lemma ScenarioRecommendation()
    ensures var cheap := Item(1, "a", "c", 10.0, 3.0);
      var rated := Item(2, "b", "c", 50.0, 4.5);
      && AveragePrice([cheap, rated]) == 30.0
      && IsRecommended(cheap, 30.0) && IsRecommended(rated, 30.0)
  {
  }

  /** "shoe" finds "Running Shoes" but not "Desk Lamp". */
  lemma ScenarioSearch()
    ensures var shoes := Item(1, "Running Shoes", "c", 1.0, 0.0);
      var lamp := Item(2, "Desk Lamp", "c", 1.0, 0.0);
      FilterProducts([shoes, lamp], "shoe", AllCategories) == [shoes]
  {
    var shoes := Item(1, "Running Shoes", "c", 1.0, 0.0);
    var lamp := Item(2, "Desk Lamp", "c", 1.0, 0.0);
    ShoesMatch(shoes);
    LampDoesNotMatch(lamp);
    var byTitle := Seqs.Filter([shoes, lamp], p => TitleMatches(p, "shoe"));
    assert [shoes, lamp][1..] == [lamp];
    assert byTitle == [shoes];
    assert Seqs.Filter(byTitle, p => CategoryMatches(p, AllCategories)) == [shoes];
  }

  lemma ShoesMatch(p: Product)
    requires p.title == "Running Shoes"
    ensures TitleMatches(p, "shoe")
  {
    assert Text.Lower("shoe") == "shoe";
    assert Text.Lower(p.title) == "running shoes";
    assert Text.OccursAt(Text.Lower(p.title), "shoe", 8);
    TitleMatchesIff(p, "shoe");
  }

  lemma LampDoesNotMatch(p: Product)
    requires p.title == "Desk Lamp"
    ensures !TitleMatches(p, "shoe")
  {
    assert Text.Lower("shoe") == "shoe";
    assert Text.Lower(p.title) == "desk lamp";
    DeskLampLacksShoe();
  }

  lemma DeskLampLacksShoe()
    ensures !Text.Contains("desk lamp", "shoe")
  {
    var h := "desk lamp";
    assert !Text.Contains(h[6..], "shoe");
    assert h[5..][1..] == h[6..] && h[5..][..4] == "lamp";
    assert !Text.Contains(h[5..], "shoe");
    assert h[4..][1..] == h[5..] && h[4..][..4] == " lam";
    assert !Text.Contains(h[4..], "shoe");
    assert h[3..][1..] == h[4..] && h[3..][..4] == "k la";
    assert !Text.Contains(h[3..], "shoe");
    assert h[2..][1..] == h[3..] && h[2..][..4] == "sk l";
    assert !Text.Contains(h[2..], "shoe");
    assert h[1..][1..] == h[2..] && h[1..][..4] == "esk ";
    assert !Text.Contains(h[1..], "shoe");
    assert h[..4] == "desk";
  }

  /** "high" orders prices 10, 50, 30 as 50, 30, 10. */
  lemma ScenarioSortHigh()
    ensures var a, b, c := Item(1, "a", "x", 10.0, 0.0), Item(2, "b", "x", 50.0, 0.0), Item(3, "c", "x", 30.0, 0.0);
      VisibleProducts([a, b, c], "", AllCategories, "high") == [b, c, a]
  {
    var a, b, c := Item(1, "a", "x", 10.0, 0.0), Item(2, "b", "x", 50.0, 0.0), Item(3, "c", "x", 30.0, 0.0);
    DefaultFilterKeepsAll([a, b, c]);
    SortThreeDescending(a, b, c);
  }

  /** With distinct prices, sorting by the negated price puts the three
      products in descending price order. */
  lemma SortThreeDescending(a: Product, b: Product, c: Product)
    requires a.price < c.price < b.price
    ensures Sort([a, b, c], NegatedPrice) == [b, c, a]
  {
    var ps, expected := [a, b, c], [b, c, a];
    assert SortedBy(expected, NegatedPrice);
    assert StableWith(ps, expected, NegatedPrice) by {
      forall k
        ensures KeyClass(ps, NegatedPrice, k) == KeyClass(expected, NegatedPrice, k)
      {
        KeyClassOfThree(a, b, c, k);
        KeyClassOfThree(b, c, a, k);
      }
    }
    SortStable(ps, NegatedPrice);
    SortSorted(expected, NegatedPrice);
    SortedStableUnique(Sort(ps, NegatedPrice), expected, NegatedPrice);
  }

  /** The key class of a three-element list with pairwise distinct keys. */
  lemma KeyClassOfThree(x: Product, y: Product, z: Product, k: real)
    requires x.price != y.price && y.price != z.price && x.price != z.price
    ensures KeyClass([x, y, z], NegatedPrice, k) ==
              if k == -x.price then [x] else if k == -y.price then [y] else if k == -z.price then [z] else []
  {
    assert [x, y, z][1..] == [y, z];
    assert [y, z][1..] == [z];
    assert [z][1..] == [];
    var last := if k == -z.price then [z] else [];
    assert KeyClass([z], NegatedPrice, k) == last;
    var two := (if k == -y.price then [y] else []) + last;
    assert KeyClass([y, z], NegatedPrice, k) == two;
    assert KeyClass([x, y, z], NegatedPrice, k) == (if k == -x.price then [x] else []) + two;
  }
}

=== FILE: seqs.dfy ===
/** Generic facts about sequences used by every list operation of the
    catalog view: order-preserving filtering, subsequences and duplicates. */
module Seqs {

  /** `idx` maps each position of `a` to a position of `b` holding the same
      element, strictly increasingly: `a` is `b` with some elements dropped. */
  ghost predicate Embeds<T>(a: seq<T>, b: seq<T>, idx: seq<int>) {
    && |idx| == |a|
    && (forall i :: 0 <= i < |idx| ==> 0 <= idx[i] < |b| && a[i] == b[idx[i]])
    && (forall i, j :: 0 <= i < j < |idx| ==> idx[i] < idx[j])
  }

  ghost predicate IsSubsequence<T>(a: seq<T>, b: seq<T>) {
    exists idx :: Embeds(a, b, idx)
  }

  predicate NoDuplicates<T(==)>(s: seq<T>) {
    forall i, j :: 0 <= i < j < |s| ==> s[i] != s[j]
  }

  /** The elements of `s` satisfying `f`, in their original order, the way
      `Array.prototype.filter` builds a fresh array. */
  function Filter<T(==,!new)>(s: seq<T>, f: T -> bool): (r: seq<T>)
    ensures |r| <= |s|
    ensures forall i :: 0 <= i < |r| ==> f(r[i])
    ensures forall x :: x in r <==> x in s && f(x)
    ensures forall x :: multiset(r)[x] == if f(x) then multiset(s)[x] else 0
  {
    if |s| == 0 then []
    else
      assert s == [s[0]] + s[1..];
      if f(s[0]) then [s[0]] + Filter(s[1..], f)
      else Filter(s[1..], f)
  }

  /** Filtering keeps the survivors in their original relative order. */
  lemma {:induction false} FilterIsSubsequence<T(!new)>(s: seq<T>, f: T -> bool) returns (idx: seq<int>)
    ensures Embeds(Filter(s, f), s, idx)
  {
    if |s| == 0 {
      idx := [];
    } else {
      var rest := FilterIsSubsequence(s[1..], f);
      var shifted := EmbedsInTail(Filter(s[1..], f), s, rest);
      if f(s[0]) {
        idx := EmbedsCons(s[0], Filter(s[1..], f), s, shifted);
      } else {
        idx := shifted;
      }
    }
  }

  lemma EmbedsInTail<T>(a: seq<T>, b: seq<T>, idx: seq<int>) returns (idx': seq<int>)
    requires |b| > 0 && Embeds(a, b[1..], idx)
    ensures Embeds(a, b, idx') && forall i :: 0 <= i < |idx'| ==> idx'[i] > 0
  {
    idx' := seq(|idx|, i requires 0 <= i < |idx| => idx[i] + 1);
    forall i | 0 <= i < |idx'|
      ensures a[i] == b[idx'[i]]
    {
      assert b[1..][idx[i]] == b[idx[i] + 1];
    }
  }

  lemma EmbedsCons<T>(x: T, a: seq<T>, b: seq<T>, idx: seq<int>) returns (idx': seq<int>)
    requires |b| > 0 && b[0] == x
    requires Embeds(a, b, idx) && forall i :: 0 <= i < |idx| ==> idx[i] > 0
    ensures Embeds([x] + a, b, idx')
  {
    idx' := [0] + idx;
  }

  /** Embeddings compose: a subsequence of a subsequence is a subsequence. */
  lemma EmbedsCompose<T>(a: seq<T>, b: seq<T>, c: seq<T>, ab: seq<int>, bc: seq<int>) returns (ac: seq<int>)
    requires Embeds(a, b, ab) && Embeds(b, c, bc)
    ensures Embeds(a, c, ac)
  {
    ac := seq(|ab|, i requires 0 <= i < |ab| => bc[ab[i]]);
  }

  lemma {:induction false} FilterConcat<T(!new)>(a: seq<T>, b: seq<T>, f: T -> bool)
    ensures Filter(a + b, f) == Filter(a, f) + Filter(b, f)
  {
    if |a| == 0 {
      assert a + b == b;
    } else {
      assert (a + b)[1..] == a[1..] + b;
      FilterConcat(a[1..], b, f);
    }
  }

  /** A filter that every element passes returns its input unchanged. */
  lemma {:induction false} FilterKeepsAll<T(!new)>(s: seq<T>, f: T -> bool)
    requires forall i :: 0 <= i < |s| ==> f(s[i])
    ensures Filter(s, f) == s
  {
    if |s| != 0 {
      FilterKeepsAll(s[1..], f);
    }
  }

  lemma {:induction false} FilterNoDuplicates<T(!new)>(s: seq<T>, f: T -> bool)
    ensures NoDuplicates(s) ==> NoDuplicates(Filter(s, f))
  {
    if |s| != 0 && NoDuplicates(s) {
      assert NoDuplicates(s[1..]) by {
        forall i, j | 0 <= i < j < |s| - 1 ensures s[1..][i] != s[1..][j] {
          assert s[i + 1] != s[j + 1];
        }
      }
      FilterNoDuplicates(s[1..], f);
      assert s[0] !in s[1..] by {
        forall i | 0 <= i < |s| - 1 ensures s[1..][i] != s[0] {
          assert s[i + 1] != s[0];
        }
      }
    }
  }

  /** A duplicate-free sequence has as many elements as its set of elements. */
  lemma {:induction false} NoDuplicatesCardinality<T>(s: seq<T>)
    requires NoDuplicates(s)
    ensures |set x | x in s| == |s|
  {
    if |s| != 0 {
      var init := s[..|s| - 1];
      var last := s[|s| - 1];
      assert s == init + [last];
      assert NoDuplicates(init);
      NoDuplicatesCardinality(init);
      assert (set x | x in s) == (set x | x in init) + {last};
      assert last !in (set x | x in init);
    }
  }

  /** Position of the first occurrence of `x` in `s`. */
  function FirstIndex<T(==)>(s: seq<T>, x: T): (i: nat)
    requires x in s
    ensures i < |s| && s[i] == x
    ensures x !in s[..i]
  {
    if s[0] == x then 0 else 1 + FirstIndex(s[1..], x)
  }

  /** Extending a sequence at the end does not move first occurrences. */
  lemma {:induction false} FirstIndexPrefix<T>(s: seq<T>, n: nat, x: T)
    requires n <= |s| && x in s[..n]
    ensures FirstIndex(s, x) == FirstIndex(s[..n], x)
  {
  }
}

=== FILE: session.dfy ===
/** The state of the product page and the transitions its effects and
    handlers perform. Each React effect is one explicit transition; the
    product source and the store are inputs rather than ambient globals. */
module Session {
  import opened Products
  import opened Storage
  import opened Favorites
  import opened Recommendation
  import opened Catalog

  /** What the product request delivers: the list, or a failure of any kind
      (network error, non-success status). */
  datatype FetchOutcome = Fetched(products: seq<Product>) | FetchFailed

  const LoadErrorMessage: string := "Failed to load products"

  datatype State = State(
    products: seq<Product>,
    loading: bool,
    error: string,
    search: string,
    category: string,
    sort: string,
    favorites: seq<int>,
    darkMode: bool,
    store: Store)

  /** A reload would read back the favorites and theme the page holds. */
  predicate Consistent(s: State) {
    ReadFavorites(s.store) == Parsed(s.favorites) && ReadDarkMode(s.store) == Parsed(s.darkMode)
  }

  /** The first render and its effects: the theme comes from the store, the
      request is started, the favorites are read, and the theme is written
      back. A stored text that does not parse makes the page throw. */
  function Mount(store: Store): (r: Read<State>)
    ensures r.Parsed? <==> ReadFavorites(store).Parsed? && ReadDarkMode(store).Parsed?
    ensures r.Parsed? ==>
              && r.value.loading && r.value.products == [] && r.value.error == ""
              && r.value.search == "" && r.value.category == AllCategories && r.value.sort == ""
              && r.value.favorites == ReadFavorites(store).value
              && r.value.darkMode == ReadDarkMode(store).value
              && Consistent(r.value)
    ensures r.Parsed? ==> r.value.store == WriteDarkMode(store, r.value.darkMode)
    ensures r.Parsed? ==> forall k :: k in store && k != DarkModeKey ==> k in r.value.store && r.value.store[k] == store[k]
    ensures r.Parsed? ==> forall k :: k in r.value.store ==> k in store || k == DarkModeKey
  {
    match (ReadDarkMode(store), ReadFavorites(store))
    case (Parsed(dark), Parsed(favorites)) =>
      Parsed(State([], true, "", "", AllCategories, "", favorites, dark, WriteDarkMode(store, dark)))
    case _ => Failed
  }

  /** The request settles: `.then(setProducts)`, `.catch(setError(...))`,
      `.finally(setLoading(false))`. */
  function Resolve(s: State, outcome: FetchOutcome): (r: State)
    ensures !r.loading
    ensures outcome.Fetched? ==> r.products == outcome.products && r.error == s.error
    ensures outcome.FetchFailed? ==> r.products == s.products && r.error == LoadErrorMessage
    ensures r.favorites == s.favorites && r.darkMode == s.darkMode && r.store == s.store
    ensures r.search == s.search && r.category == s.category && r.sort == s.sort
  {
    match outcome
    case Fetched(ps) => s.(products := ps, loading := false)
    case FetchFailed => s.(error := LoadErrorMessage, loading := false)
  }

  /** Toggles one id and writes the new list to the store. */
  function ToggleFavorite(s: State, id: int): (r: State)
    ensures r.favorites == Toggle(s.favorites, id)
    ensures id in r.favorites <==> id !in s.favorites
    ensures forall x :: x != id ==> (x in r.favorites <==> x in s.favorites)
    ensures ReadFavorites(r.store) == Parsed(r.favorites)
    ensures ReadDarkMode(r.store) == ReadDarkMode(s.store)
    ensures r.store == WriteFavorites(s.store, r.favorites)
    ensures forall k :: k in s.store && k != FavoritesKey ==> k in r.store && r.store[k] == s.store[k]
    ensures forall k :: k in r.store ==> k in s.store || k == FavoritesKey
    ensures Consistent(s) ==> Consistent(r)
    ensures r.products == s.products && r.darkMode == s.darkMode && r.loading == s.loading
    ensures r.error == s.error && r.search == s.search && r.category == s.category && r.sort == s.sort
  {
    var favorites := Toggle(s.favorites, id);
    s.(favorites := favorites, store := WriteFavorites(s.store, favorites))
  }

  /** Flips the theme; the effect watching it writes the new value. */
  function ToggleDarkMode(s: State): (r: State)
    ensures r.darkMode == !s.darkMode
    ensures ReadDarkMode(r.store) == Parsed(r.darkMode)
    ensures ReadFavorites(r.store) == ReadFavorites(s.store)
    ensures r.store == WriteDarkMode(s.store, r.darkMode)
    ensures forall k :: k in s.store && k != DarkModeKey ==> k in r.store && r.store[k] == s.store[k]
    ensures forall k :: k in r.store ==> k in s.store || k == DarkModeKey
    ensures Consistent(s) ==> Consistent(r)
    ensures r.products == s.products && r.favorites == s.favorites && r.loading == s.loading
    ensures r.error == s.error && r.search == s.search && r.category == s.category && r.sort == s.sort
  {
    var dark := !s.darkMode;
    s.(darkMode := dark, store := WriteDarkMode(s.store, dark))
  }

  lemma ToggleDarkModeTwice(s: State)
    ensures ToggleDarkMode(ToggleDarkMode(s)).darkMode == s.darkMode
    ensures ReadDarkMode(ToggleDarkMode(ToggleDarkMode(s)).store) == Parsed(s.darkMode)
  {
  }

  /** One product card: the product and its two badges. */
  datatype Card = Card(product: Product, isFavorite: bool, recommended: bool)

  datatype Screen =
    | LoadingScreen
    | ErrorScreen(message: string)
    | CatalogScreen(categories: seq<string>, cards: seq<Card>)

  function Cards(s: State): (cards: seq<Card>)
    ensures |cards| == |VisibleProducts(s.products, s.search, s.category, s.sort)|
  {
    var visible := VisibleProducts(s.products, s.search, s.category, s.sort);
    var avg := AveragePrice(s.products);
    seq(|visible|, i requires 0 <= i < |visible| =>
      Card(visible[i], visible[i].id in s.favorites, IsRecommended(visible[i], avg)))
  }

  /** The loader while loading, the message when there is an error (a
      non-empty string), the catalog otherwise. */
  function Render(s: State): (r: Screen)
    ensures s.loading <==> r == LoadingScreen
    ensures r.ErrorScreen? <==> !s.loading && s.error != ""
    ensures r.ErrorScreen? ==> r.message == s.error
    ensures r.CatalogScreen? ==> r.categories == Categories(s.products) && r.cards == Cards(s)
  {
    if s.loading then LoadingScreen
    else if s.error != "" then ErrorScreen(s.error)
    else CatalogScreen(Categories(s.products), Cards(s))
  }

  /** A successful load shows the catalog of the fetched products; a failed
      one shows the fixed message and keeps the list empty. */
  lemma MountThenResolve(store: Store, outcome: FetchOutcome)
    requires Mount(store).Parsed?
    ensures var r := Resolve(Mount(store).value, outcome);
      && !r.loading
      && (outcome.Fetched? ==> r.products == outcome.products && r.error == "" && Render(r).CatalogScreen?)
      && (outcome.FetchFailed? ==> r.products == [] && Render(r) == ErrorScreen(LoadErrorMessage))
      && Consistent(r)
  {
  }

  /** Each shown card carries the product at its position of the visible
      list, its favorite flag is membership in the favorites, and its badge
      is the recommendation against the mean price of the whole loaded list. */
  lemma CardsDescribeVisibleProducts(s: State)
    ensures var visible := VisibleProducts(s.products, s.search, s.category, s.sort);
      forall i :: 0 <= i < |Cards(s)| ==>
        && Cards(s)[i].product == visible[i]
        && (Cards(s)[i].isFavorite <==> visible[i].id in s.favorites)
        && Cards(s)[i].recommended == IsRecommended(visible[i], AveragePrice(s.products))
  {
  }

  /** The badge uses the mean of the whole loaded list, so search, category
      and sort never change whether a product is recommended. */
  lemma RecommendationIgnoresViewInputs(s: State, t: State)
    requires s.products == t.products
    ensures forall i, j :: 0 <= i < |Cards(s)| && 0 <= j < |Cards(t)| && Cards(s)[i].product == Cards(t)[j].product ==>
              Cards(s)[i].recommended == Cards(t)[j].recommended
  {
  }

  /** After toggling an id, every card of a product with that id shows the
      opposite favorite flag, and every other card keeps its flag. */
  lemma ToggleFavoriteFlipsCards(s: State, id: int)
    ensures |Cards(ToggleFavorite(s, id))| == |Cards(s)|
    ensures forall i :: 0 <= i < |Cards(s)| ==>
              var before, after := Cards(s)[i], Cards(ToggleFavorite(s, id))[i];
              && after.product == before.product
              && (before.product.id == id ==> after.isFavorite == !before.isFavorite)
              && (before.product.id != id ==> after.isFavorite == before.isFavorite)
  {
  }
}

=== FILE: stable_sort.dfy ===
/** A stable sort by a real-valued key. Section 23.1.3.30 of ECMA-262 (2023
    edition) requires `Array.prototype.sort` to be stable: elements the
    comparator reports equal keep their relative order. The algorithm an
    engine uses is not observable; `SortedStableUnique` shows that sortedness
    and stability together fix the result, so an insertion sort serves as
    the definition. */
module StableSort {

  predicate SortedBy<T>(s: seq<T>, key: T -> real) {
    forall i, j :: 0 <= i < j < |s| ==> key(s[i]) <= key(s[j])
  }

  /** The elements of `s` whose key is `k`, in their order in `s`: the
      filter `Seqs.Filter(s, x => key(x) == k)`, written out so that it
      needs no equality on `T`. Two
      sequences with the same key classes list equal-key elements in the
      same relative order. */
  function KeyClass<T>(s: seq<T>, key: T -> real, k: real): (r: seq<T>)
    ensures |r| <= |s|
    ensures forall i :: 0 <= i < |r| ==> key(r[i]) == k
    ensures forall i :: 0 <= i < |s| && key(s[i]) == k ==> s[i] in r
    ensures forall i :: 0 <= i < |r| ==> r[i] in s
  {
    if |s| == 0 then []
    else if key(s[0]) == k then [s[0]] + KeyClass(s[1..], key, k)
    else KeyClass(s[1..], key, k)
  }

  /** Equal-key elements appear in `r` in the same relative order as in `s`. */
  ghost predicate StableWith<T>(r: seq<T>, s: seq<T>, key: T -> real) {
    forall k :: KeyClass(r, key, k) == KeyClass(s, key, k)
  }

  lemma SortedTail<T>(s: seq<T>, key: T -> real)
    requires |s| > 0 && SortedBy(s, key)
    ensures SortedBy(s[1..], key)
    ensures forall i :: 0 <= i < |s| ==> key(s[0]) <= key(s[i])
  {
    forall i, j | 0 <= i < j < |s| - 1
      ensures key(s[1..][i]) <= key(s[1..][j])
    {
      assert s[1..][i] == s[i + 1] && s[1..][j] == s[j + 1];
    }
  }

  /** Inserts `x` after every element whose key is not greater than its own. */
  function Insert<T>(x: T, s: seq<T>, key: T -> real): (r: seq<T>)
    requires SortedBy(s, key)
    ensures SortedBy(r, key)
    ensures multiset(r) == multiset(s) + multiset{x}
    ensures forall i :: 0 <= i < |r| ==> r[i] == x || r[i] in s
  {
    if |s| == 0 then [x]
    else if key(x) < key(s[0]) then [x] + s
    else
      SortedTail(s, key);
      var rest := s[1..];
      assert multiset(s) == multiset{s[0]} + multiset(rest) by {
        assert s == [s[0]] + rest;
      }
      [s[0]] + Insert(x, rest, key)
  }

  function Sort<T>(s: seq<T>, key: T -> real): (r: seq<T>)
    ensures SortedBy(r, key)
    ensures multiset(r) == multiset(s)
  {
    if |s| == 0 then []
    else
      assert s == s[..|s| - 1] + [s[|s| - 1]];
      Insert(s[|s| - 1], Sort(s[..|s| - 1], key), key)
  }

  lemma {:induction false} KeyClassConcat<T>(a: seq<T>, b: seq<T>, key: T -> real, k: real)
    ensures KeyClass(a + b, key, k) == KeyClass(a, key, k) + KeyClass(b, key, k)
  {
    if |a| == 0 {
      assert a + b == b;
    } else {
      assert (a + b)[1..] == a[1..] + b;
      KeyClassConcat(a[1..], b, key, k);
    }
  }

  lemma {:induction false} KeyClassAbove<T>(s: seq<T>, key: T -> real, k: real)
    requires forall i :: 0 <= i < |s| ==> key(s[i]) > k
    ensures KeyClass(s, key, k) == []
  {
    if |s| != 0 {
      KeyClassAbove(s[1..], key, k);
    }
  }

  /** Inserting `x` appends it to its own key class and leaves the others. */
  lemma {:induction false} InsertKeyClass<T>(x: T, s: seq<T>, key: T -> real, k: real)
    requires SortedBy(s, key)
    ensures KeyClass(Insert(x, s, key), key, k)
         == KeyClass(s, key, k) + (if key(x) == k then [x] else [])
  {
    if |s| == 0 {
    } else if key(x) < key(s[0]) {
      if key(x) == k {
        KeyClassAbove(s, key, k);
      }
    } else {
      InsertKeyClass(x, s[1..], key, k);
    }
  }

  /** The sort is stable. */
  lemma {:induction false} SortStable<T>(s: seq<T>, key: T -> real)
    ensures StableWith(Sort(s, key), s, key)
  {
    if |s| != 0 {
      var init, last := s[..|s| - 1], s[|s| - 1];
      assert s == init + [last];
      SortStable(init, key);
      forall k
        ensures KeyClass(Sort(s, key), key, k) == KeyClass(s, key, k)
      {
        InsertKeyClass(last, Sort(init, key), key, k);
        KeyClassConcat(init, [last], key, k);
      }
    }
  }

  lemma KeyClassHead<T>(s: seq<T>, key: T -> real)
    requires |s| > 0
    ensures KeyClass(s, key, key(s[0])) != []
  {
  }

  /** Two sorted sequences with the same key classes start alike. */
  lemma SameHead<T>(a: seq<T>, b: seq<T>, key: T -> real)
    requires |a| > 0 && |b| > 0
    requires SortedBy(a, key) && SortedBy(b, key)
    requires StableWith(a, b, key)
    ensures a[0] == b[0]
    ensures StableWith(a[1..], b[1..], key)
  {
    var m := key(a[0]);
    assert b[0] in KeyClass(a, key, key(b[0])) by {
      assert b[0] in KeyClass(b, key, key(b[0]));
    }
    assert a[0] in KeyClass(b, key, m) by {
      assert a[0] in KeyClass(a, key, m);
    }
    var j :| 0 <= j < |a| && a[j] == b[0];
    var j' :| 0 <= j' < |b| && b[j'] == a[0];
    assert key(b[0]) == m by {
      assert key(a[0]) <= key(a[j]);
      assert key(b[0]) <= key(b[j']);
    }
    assert KeyClass(a, key, m)[0] == a[0];
    assert KeyClass(b, key, m)[0] == b[0];
    forall k
      ensures KeyClass(a[1..], key, k) == KeyClass(b[1..], key, k)
    {
      assert KeyClass(a, key, k) == KeyClass(b, key, k);
      if k == m {
        assert KeyClass(a[1..], key, k) == KeyClass(a, key, k)[1..];
        assert KeyClass(b[1..], key, k) == KeyClass(b, key, k)[1..];
      }
    }
  }

  /** Sortedness and stability determine the result: any two sorted
      sequences with the same key classes are equal. */
  lemma {:induction false} SortedStableUnique<T>(a: seq<T>, b: seq<T>, key: T -> real)
    requires SortedBy(a, key) && SortedBy(b, key)
    requires StableWith(a, b, key)
    ensures a == b
  {
    if |a| == 0 && |b| == 0 {
    } else if |a| == 0 {
      KeyClassHead(b, key);
    } else if |b| == 0 {
      KeyClassHead(a, key);
    } else {
      SameHead(a, b, key);
      SortedStableUnique(a[1..], b[1..], key);
      assert a == [a[0]] + a[1..];
      assert b == [b[0]] + b[1..];
    }
  }

  /** Sorting a sorted sequence leaves it unchanged. */
  lemma SortSorted<T>(s: seq<T>, key: T -> real)
    requires SortedBy(s, key)
    ensures Sort(s, key) == s
  {
    SortStable(s, key);
    SortedStableUnique(Sort(s, key), s, key);
  }
}

=== FILE: storage.dfy ===
/** The browser's local key-value store as the page uses it: two keys, each
    holding a JSON text. Texts are abstracted to what parsing them yields. */
module Storage {

  /** What a stored text is, once parsed: a JSON array of ids, a JSON
      boolean, some other JSON value (recorded by its truthiness, the only
      way the theme flag is ever used), the empty text, or text that
      `JSON.parse` rejects. */
  datatype Stored =
    | IdList(ids: seq<int>)
    | Flag(on: bool)
    | OtherJson(truthy: bool)
    | EmptyText
    | Unparseable

  type Store = map<string, Stored>

  const FavoritesKey: string := "favorites"
  const DarkModeKey: string := "darkMode"

  /** A read either yields a value or fails. The page calls `JSON.parse`
      without a guard, so a stored text that does not parse throws instead
      of falling back to a default. */
  datatype Read<T> = Parsed(value: T) | Failed

  /** `stored ? JSON.parse(stored) : []`: a missing or empty text reads as
      no favorites. A JSON value that is not an id list is not a favorites
      list the page can use, and reads as a failure too. */
  function ReadFavorites(store: Store): (r: Read<seq<int>>)
    ensures FavoritesKey !in store ==> r == Parsed([])
    ensures FavoritesKey in store && store[FavoritesKey].IdList? ==> r == Parsed(store[FavoritesKey].ids)
    ensures FavoritesKey in store && store[FavoritesKey].EmptyText? ==> r == Parsed([])
    ensures r.Failed? <==>
              FavoritesKey in store && !store[FavoritesKey].IdList? && !store[FavoritesKey].EmptyText?
  {
    if FavoritesKey !in store then Parsed([])
    else match store[FavoritesKey]
      case IdList(ids) => Parsed(ids)
      case EmptyText => Parsed([])
      case _ => Failed
  }

  /** `saved ? JSON.parse(saved) : false`: a missing or empty text reads as
      the light theme. Any parsed JSON value is accepted and acts through
      its truthiness; an array is truthy even when empty. */
  function ReadDarkMode(store: Store): (r: Read<bool>)
    ensures DarkModeKey !in store ==> r == Parsed(false)
    ensures r.Failed? <==> DarkModeKey in store && store[DarkModeKey].Unparseable?
    ensures DarkModeKey in store && store[DarkModeKey].EmptyText? ==> r == Parsed(false)
    ensures DarkModeKey in store && store[DarkModeKey].Flag? ==> r == Parsed(store[DarkModeKey].on)
    ensures DarkModeKey in store && store[DarkModeKey].IdList? ==> r == Parsed(true)
    ensures DarkModeKey in store && store[DarkModeKey].OtherJson? ==> r == Parsed(store[DarkModeKey].truthy)
  {
    if DarkModeKey !in store then Parsed(false)
    else match store[DarkModeKey]
      case Flag(on) => Parsed(on)
      case IdList(_) => Parsed(true)
      case OtherJson(truthy) => Parsed(truthy)
      case EmptyText => Parsed(false)
      case Unparseable => Failed
  }

  /** `localStorage.setItem('favorites', JSON.stringify(favorites))`. */
  function WriteFavorites(store: Store, favorites: seq<int>): (r: Store)
    ensures ReadFavorites(r) == Parsed(favorites)
    ensures ReadDarkMode(r) == ReadDarkMode(store)
    ensures forall k :: k in store && k != FavoritesKey ==> k in r && r[k] == store[k]
    ensures forall k :: k in r ==> k in store || k == FavoritesKey
  {
    store[FavoritesKey := IdList(favorites)]
  }

  /** `localStorage.setItem('darkMode', JSON.stringify(darkMode))`. */
  function WriteDarkMode(store: Store, on: bool): (r: Store)
    ensures ReadDarkMode(r) == Parsed(on)
    ensures ReadFavorites(r) == ReadFavorites(store)
    ensures forall k :: k in store && k != DarkModeKey ==> k in r && r[k] == store[k]
    ensures forall k :: k in r ==> k in store || k == DarkModeKey
  {
    store[DarkModeKey := Flag(on)]
  }
}

=== FILE: text.dfy ===
/** Case-insensitive substring search, as `title.toLowerCase().includes(
    search.toLowerCase())` performs it. Lower-casing is ASCII only. */
module Text {

  predicate IsUpperAscii(c: char) {
    'A' <= c <= 'Z'
  }

  function LowerChar(c: char): (r: char)
    ensures !IsUpperAscii(r)
    ensures IsUpperAscii(c) ==> r as int == c as int + 32
    ensures !IsUpperAscii(c) ==> r == c
  {
    if IsUpperAscii(c) then (c as int + 32) as char else c
  }

  /** `String.prototype.toLowerCase`, restricted to the ASCII letters. */
  function Lower(s: string): (r: string)
    ensures |r| == |s|
    ensures forall i :: 0 <= i < |r| ==> !IsUpperAscii(r[i])
    ensures forall i :: 0 <= i < |s| && IsUpperAscii(s[i]) ==> r[i] as int == s[i] as int + 32
    ensures forall i :: 0 <= i < |s| && !IsUpperAscii(s[i]) ==> r[i] == s[i]
  {
    seq(|s|, i requires 0 <= i < |s| => LowerChar(s[i]))
  }

  lemma LowerIdempotent(s: string)
    ensures Lower(Lower(s)) == Lower(s)
  {
  }

  /** Strings that differ only in the case of ASCII letters lower-case
      alike, so the search ignores letter case. */
  lemma LowerIgnoresCase(s: string, t: string)
    requires |s| == |t|
    requires forall i :: 0 <= i < |s| ==> LowerChar(s[i]) == LowerChar(t[i])
    ensures Lower(s) == Lower(t)
  {
  }

  /** `needle` sits in `hay` starting at position `i`. */
  predicate OccursAt(hay: string, needle: string, i: nat) {
    i + |needle| <= |hay| && hay[i..i + |needle|] == needle
  }

  /** `String.prototype.includes`: scan the start positions left to right.
      The scan finds the needle exactly when it occurs somewhere. */
  predicate Contains(hay: string, needle: string): (r: bool)
    ensures r <==> exists i: nat :: OccursAt(hay, needle, i)
    decreases |hay|
  {
    OccursAtHeadOrTail(hay, needle);
    if |needle| > |hay| then false
    else if hay[..|needle|] == needle then true
    else Contains(hay[1..], needle)
  }

  /** An occurrence is either at the start or an occurrence in the tail. */
  lemma OccursAtHeadOrTail(hay: string, needle: string)
    ensures |needle| > |hay| ==> forall i: nat :: !OccursAt(hay, needle, i)
    ensures |needle| <= |hay| && hay[..|needle|] == needle ==> OccursAt(hay, needle, 0)
    ensures |needle| <= |hay| && |hay| > 0 ==>
              ((exists i: nat :: OccursAt(hay, needle, i)) <==>
               OccursAt(hay, needle, 0) || exists i: nat :: OccursAt(hay[1..], needle, i))
  {
    if |needle| <= |hay| && |hay| > 0 {
      forall i: nat
        ensures OccursAt(hay[1..], needle, i) <==> OccursAt(hay, needle, i + 1)
      {
        if i + |needle| <= |hay[1..]| {
          assert hay[1..][i..i + |needle|] == hay[i + 1..i + 1 + |needle|];
        }
      }
      if exists i: nat :: OccursAt(hay, needle, i) {
        var i: nat :| OccursAt(hay, needle, i);
        if i != 0 {
          assert OccursAt(hay[1..], needle, i - 1);
        }
      }
    }
  }

  /** The empty search text is found in every title. */
  lemma ContainsEmpty(hay: string)
    ensures Contains(hay, "")
  {
  }
}
